=== FILE: README.md ===
# Browser tab behaviour analyzer — decision logic in Dafny

This project models the pure decision logic of the browser-tab-behaviour
analyzer and proves properties about it. The logic comes from three source
files:

- **Auto-download detection** (`extension/background.js`). The extension
  decides which downloads are dangerous. It checks the file extension
  case-insensitively and falls back to the download URL when there is no file
  name. It also checks whether the initiating URL contains a risk keyword. A
  dangerous download adds 30 to the risk and passes the sum through
  `clampRisk`. It also appends the `"auto-download"` label without
  duplicating it. The extension then sends
  tabs to the warning page. With a known tab, it scores the tab's URL (or the download URL when the tab
  has none) and
  sends only that tab, and only when the boosted risk reaches the block
  threshold. Without a numeric tab id, or when the tab lookup reports an error,
  it boosts the stored last result instead. If that boosted risk reaches the
  threshold and a last URL is stored, it sends every open tab whose URL starts
  with that last URL.
- **Keyword mining** (`python/extract_keywords.py`). The `clean_url` tokeniser
  lower-cases a URL, masks everything outside `[a-z0-9]` and splits on
  whitespace. The miner counts the words of the malicious and benign corpora
  and keeps each word that occurs more than once and more often in the
  malicious corpus than in the benign one. It orders the kept words by
  descending count with a stable sort and reports the first forty.
- **Popup rendering** (`extension/popup.js`). A score is banded as high (≥ 6),
  medium (≥ 3) or low. The keyword list is joined with `", "`, and `"None"` is
  shown when the joined text is empty.

The risk-scoring engine is not part of this model: `scoreUrl`, `clampRisk`,
`containsAny`, `THRESHOLD_BLOCK`, `HIGH_RISK_KEYWORDS` and
`MEDIUM_RISK_KEYWORDS` are used by `background.js` but defined elsewhere. They
are the fields of the `Downloads.Engine` record and stay uninterpreted. Every
result about them holds for any scoring function, any clamp and any threshold.
Browser calls are replaced by plain values:

- The result of `chrome.tabs.get` is a `TabLookup` input.
- What storage returns is a `Stored` input.
- The open tabs are a sequence of `Tab`.
- What is persisted and which tabs are redirected is the `Reaction` output.

Files: `wrappers.dfy` (`Option`), `text.dfy` (ASCII lower-casing, prefix and
suffix tests, join), `downloads.dfy`, `url_tokens.dfy`, `freq_sort.dfy`,
`keyword_miner.dfy`, `popup.dfy`.

Notes on the code as written:

- `background.js` line 70 reads `tab.url` after line 39 has allowed for a
  missing `tab`. If `chrome.tabs.get` reports neither an error nor a tab, the
  record is still stored, but building the notification throws before the
  redirect check. The model's `TabLookup.NoTab` case has that behaviour.
- The popup also shows `"None"` for a list holding one empty string, and for
  the list `["None"]`. A list of two or more empty strings joins to
  separators only (`", "`, `", , "`, …), which are shown as they are.
  `Popup.KeywordTextNone` states this exactly.
- Python's `sorted(..., reverse=True)` is stable. Words of equal count
  therefore stay in the order of the `Counter`, which is the order in which
  each word first occurs in the malicious corpus. The model keeps both orders,
  and `KeywordMiner.SuspiciousKeywordsTies` states the resulting tie order.
- `background.js` line 22 uses `downloadItem.referrer` itself as a string,
  while line 140 reads `downloadItem.referrer.url`. The browser's `referrer`
  is a string, so under that reading `referrer.url` is always undefined, the
  initiator falls back to the download URL, and the referrer branch never
  fires. The model keeps line 140's reading through `referrerUrl`; an input
  with `referrerUrl == ""` gives the behaviour under the string reading.

## Model

| member | source | states |
|---|---|---|
| Downloads.SomeSuffix | extension/background.js:15 | `some(ext => s.endsWith(ext))` is true iff some listed extension is a suffix of `s` |
| Downloads.IsDangerousFilename | extension/background.js:12-16 | an empty name is never dangerous; a name is dangerous iff its lower-cased form ends with one of the eight listed extensions |
| Downloads.DangerousByTail | extension/background.js:6-15 | an independent reading of the list: dangerous iff the lower-cased name ends in ".js" or its last four characters are one of .exe .msi .apk .bat .cmd .scr .jar |
| Downloads.DangerousIgnoresCase | extension/background.js:14 | two names that differ only in letter case get the same verdict |
| Downloads.DangerousHasDot | extension/background.js:6 | every extension starts with "." and has at least three characters, so a dangerous name contains "." and has length ≥ 3 |
| Downloads.CandidateName | extension/background.js:132 | the name tested is the file name, or the URL when the file name is empty; it is empty only when both are |
| Downloads.InitiatorUrl | extension/background.js:140 | the initiating URL is the referrer URL when present, else the download URL; it is empty only when both are |
| Downloads.Classify | extension/background.js:132-144 | the download is handed on iff the file name (or the URL when the name is empty) is dangerous, or the initiating URL is non-empty and `containsAny` finds a high- or medium-risk keyword; the initiator is used only when the name test fails |
| Downloads.ClassifyFallsBackToUrl | extension/background.js:132-134 | with no file name a dangerous URL triggers the handler; a non-empty safe file name keeps the URL out of the extension test |
| Downloads.AddAutoDownload | extension/background.js:58 | the result contains "auto-download", keeps the old labels in order as a prefix, grows by at most one, contains nothing new except the label, and has no duplicates when the input had none |
| Downloads.AddAutoDownloadIdempotent | extension/background.js:99 | adding the label twice equals adding it once |
| Downloads.MatchingTabs | extension/background.js:114-122 | every open tab with a non-empty URL starting with the last URL is redirected; each redirect targets such a tab and carries that URL and the boosted risk |
| Downloads.BaseRisk | extension/background.js:41-47 | the base risk is the score's risk when the call returns one, and 0 otherwise (no risk field, or the call throws) |
| Downloads.BaseTriggered | extension/background.js:50-55 | the base labels are the score's labels when the call returns them, and empty otherwise |
| Downloads.MatchingTabsInOrder | extension/background.js:115-120 | the loop visits the tabs in order: the redirects for two runs of tabs are those of the first run followed by those of the second |
| Downloads.MatchingOneTab | extension/background.js:117-119 | a single tab yields one redirect exactly when its URL is non-empty and starts with the last URL, and none otherwise |
| Downloads.BoostGlobal | extension/background.js:91-126 | the stored risk (0 if missing) is boosted, the recorded labels are exactly the stored labels with "auto-download" added once, the stored URL is kept, and redirects happen only if the boosted risk reaches the threshold and a last URL is stored, only to tabs under that URL |
| Downloads.HandleDangerousDownload | extension/background.js:19-88 | every reaction records "auto-download"; every redirect carries the recorded URL and risk, and that risk reaches the block threshold; when a tab id is known and the lookup did not fail, at most that one tab is redirected |
| Downloads.HandleFallsBackToGlobal | extension/background.js:31-37 | without a numeric tab id (line 83), or when the tab lookup reports an error (line 36), the handler's reaction is exactly the global fallback's |
| Downloads.HandleNoTab | extension/background.js:39-71 | when the lookup returns no tab and no error, the download URL is recorded with `clampRisk(base + 30)` and the score's labels plus "auto-download", and nothing is redirected |
| Downloads.TabRedirectIff | extension/background.js:39-79 | with a tab found, the tab's URL (or the download URL when that is empty) is recorded with risk `clampRisk(base + 30)` and exactly the score's labels with "auto-download" added once, and the tab itself is redirected iff `clampRisk(base + 30) >= THRESHOLD_BLOCK` |
| Downloads.FallbackRedirectIff | extension/background.js:112-120 | with a stored last URL, an open tab is redirected iff `clampRisk(lastRisk + 30) >= THRESHOLD_BLOCK` and its URL starts with that last URL |
| Downloads.OnCreated | extension/background.js:129-148 | the listener reacts iff the download is classified dangerous, the reaction is then the handler's reaction, and every reaction records "auto-download" |
| UrlTokens.Mask | python/extract_keywords.py:6 | each character in `[a-z0-9]` is kept and every other character becomes a space, position by position |
| UrlTokens.CleanUrl | python/extract_keywords.py:4-7 | every token is non-empty and consists only of characters in `[a-z0-9]` |
| UrlTokens.SplitSpec | python/extract_keywords.py:7 | `split()` yields non-empty pieces without whitespace; laid end to end they are the non-whitespace characters; joined with single spaces they equal the independently defined `Squeeze` (inner whitespace runs become one space, the ends are trimmed) |
| UrlTokens.CleanUrlSqueezed | python/extract_keywords.py:4-7 | the tokens are the maximal `[a-z0-9]` runs: joined with single spaces they equal the squeezed, masked, lower-cased URL, and since tokens hold no spaces this fixes the token list |
| UrlTokens.SplitConcat | python/extract_keywords.py:7 | `split()` only removes whitespace: the pieces laid end to end are the non-whitespace characters in order |
| UrlTokens.CleanUrlKeepsAlnum | python/extract_keywords.py:4-7 | the tokens laid end to end are exactly the `[a-z0-9]` characters of the lower-cased URL, in order |
| UrlTokens.CleanUrlIgnoresCase | python/extract_keywords.py:5 | cleaning the lower-cased URL gives the same tokens as cleaning the URL |
| UrlTokens.SplitJoin | python/extract_keywords.py:7 | splitting the space-joined tokens returns the tokens |
| UrlTokens.CleanUrlIdempotent | python/extract_keywords.py:6-7 | cleaning the space-joined output of `clean_url` returns that output |
| KeywordMiner.CollectWords | python/extract_keywords.py:13-14 | the accumulation loop produces the in-order concatenation of `clean_url` over the lines |
| KeywordMiner.WordsOfAppend | python/extract_keywords.py:20-21 | the words of two batches of lines are the words of the first followed by the words of the second |
| KeywordMiner.WordsOfMembers | python/extract_keywords.py:13-14 | a word is in the list iff some line's tokens contain it, and then it is a token |
| KeywordMiner.Distinct | python/extract_keywords.py:24 | the counter's keys are exactly the words of the list, each once |
| KeywordMiner.DistinctFirstSeen | python/extract_keywords.py:29 | the counter's keys come in the order of each word's first occurrence |
| KeywordMiner.Tally | python/extract_keywords.py:24-25 | the counting loop yields the keys in first-occurrence order, a count for exactly the words present, and each count equals the word's multiplicity |
| KeywordMiner.SelectedSpec | python/extract_keywords.py:29-31 | a word is selected iff its malicious count is > 1 and > its benign count (0 when absent); it carries its malicious count; no word is selected twice |
| FreqSort.SortByFreq | python/extract_keywords.py:34 | the sorted list is a permutation of its input with non-increasing counts |
| FreqSort.SortStable | python/extract_keywords.py:34 | for every count value, the words with that count keep their input order |
| FreqSort.SortIsStableSort | python/extract_keywords.py:34 | any ordered list that keeps every count class in input order is the sort's result, so the sort is Python's stable descending sort |
| FreqSort.SortKeepsTies | python/extract_keywords.py:34 | if the keywords of each count come in increasing rank, they still do after sorting |
| KeywordMiner.Take | python/extract_keywords.py:36 | the cut is a prefix of the sorted list of length min(40, length) |
| KeywordMiner.TakeOfSorted | python/extract_keywords.py:34-36 | the cut stays ordered and duplicate-free; an entry left out means the list is full and every shown entry is at least as frequent |
| KeywordMiner.SelectKeywords | python/extract_keywords.py:27-31 | the loop over the counter's items keeps, in key order, exactly the words the rule selects, each with its malicious count |
| KeywordMiner.ExtractKeywords | python/extract_keywords.py:11-36 | the script step by step computes the reference pipeline, with at most 40 entries in non-increasing count order |
| KeywordMiner.SuspiciousKeywordsSpec | python/extract_keywords.py:24-36 | at most 40 distinct words are shown, each passing the rule with its malicious count, ordered by count; a qualifying word is missing only when 40 words at least as frequent are shown |
| KeywordMiner.SuspiciousKeywordsTies | python/extract_keywords.py:24-36 | shown words with equal counts appear in the order in which each first occurs in the malicious corpus |
| Popup.BandOf | extension/popup.js:12-18 | "high" iff score ≥ 6, "medium" iff 3 ≤ score < 6, "low" iff score < 3 |
| Popup.BandMonotone | extension/popup.js:12-18 | a higher score never gets a less severe band; distinct bands have distinct class names |
| Text.Lower | python/extract_keywords.py:5 | each ASCII capital becomes its small letter and every other character is kept, position by position; the same lower-casing serves `toLowerCase` at extension/background.js:14 |
| Text.Join | extension/popup.js:9 | the empty list joins to ""; otherwise the text starts with the first element, and with two or more elements the first element is followed by the separator |
| Text.JoinSize | extension/popup.js:9 | the joined text is as long as all elements together plus one separator fewer than there are elements |
| Popup.KeywordText | extension/popup.js:9 | the keyword text is never empty |
| Popup.JoinEmptyIff | extension/popup.js:9 | the joined list is empty iff the list is empty or is a single empty string |
| Popup.KeywordTextNone | extension/popup.js:9 | "None" is shown iff the list is empty, is [""], or joins to "None"; otherwise the joined list is shown |
| Popup.DownloadAlertShowsLabels | extension/popup.js:9 | the alert after a dangerous download always shows its joined labels, never "None" |

## Left out

- All `chrome.*` calls are left out: `tabs.get`, `tabs.update`, `tabs.query`, `storage.local`, `runtime.sendMessage`, `notifications.create` and `downloads.onCreated` registration. Their results are inputs (`TabLookup`, `Stored`, open tabs) and their effects are the `Reaction` output. Callback ordering, `lastError` logging and concurrent downloads are not modelled.
- The scoring engine (`scoreUrl`, `clampRisk`, `containsAny`, `THRESHOLD_BLOCK`, the keyword arrays) is not defined in the modelled files, so it stays uninterpreted in `Downloads.Engine`. A throwing `scoreUrl` is `None`, which gives base 0 and no labels.
- The warning-page URL built with `getURL` and `encodeURIComponent` (background.js:75, 118) is left out. A redirect records only the tab, the original URL and the risk.
- The notification texts, the logged-only `initiator` expression (background.js:22), the `console.*` calls and the `simulateDownload` test hook are left out.
- The outer `try/catch` blocks (background.js:85-87, 145-147) are left out. A throwing `scoreUrl` is `None` and a throwing `containsAny` is caught and acts as `false`, which the free `containsAny` already covers. `clampRisk` is assumed not to throw: if it threw at background.js:49 or :98, the callback would stop before `storage.local.set` and nothing would be recorded.
- Tab ids are assumed unique, as the browser guarantees. `Downloads.FallbackRedirectIff` requires this, because a redirect names a tab only by its id.
- `downloadItem.referrer` is modelled by the string `referrerUrl`, standing for `referrer.url`, with the empty string when absent.
- Text.Lower: lower-casing is ASCII only, for both JavaScript's `toLowerCase` and Python's `lower`. The few non-ASCII characters whose lower case is ASCII (for example the Kelvin sign) are treated as non-letters.
- `str.split()` treats the ASCII whitespace characters as separators. Non-ASCII whitespace never reaches it, because the mask has already turned every such character into a space.
- File reading, `splitlines` and `print` in the mining script are left out. The corpora are sequences of lines, and the result is the list of `(word, count)` pairs that would be printed.
- The popup's score is an integer. NaN and fractional scores are not modelled, and neither is the DOM (`getElementById`, `textContent`, `className`).
- Downloads.HandleDangerousDownload: its own contract states only the label, the redirect guard, the redirect contents and the single-tab bound. The recorded URL, risk and labels of each path are stated by `Downloads.TabRedirectIff` (tab found), `Downloads.HandleNoTab` (no tab) and `Downloads.HandleFallsBackToGlobal` with `Downloads.BoostGlobal` (no tab id, or a lookup error).

=== FILE: downloads.dfy ===
/** The auto-download detector of the browser extension's background worker:
    which downloads count as dangerous, how the stored risk is escalated, and
    which tabs are sent to the warning page.

    The risk-scoring engine (`scoreUrl`, `clampRisk`, `containsAny`,
    `THRESHOLD_BLOCK` and the keyword arrays) is not part of this model; it is
    passed in as an `Engine` whose fields are left uninterpreted. Browser calls
    become inputs (`TabLookup`, `Stored`, the open tabs) and outputs
    (`Reaction`). */
module Downloads {
  import opened Wrappers
  import opened Text

  /** The file extensions treated as dangerous, compared case-insensitively. */
  const DangerousExt: seq<string> := [".exe", ".msi", ".apk", ".bat", ".cmd", ".scr", ".jar", ".js"]

  /** Risk added when an automatic download is detected. */
  const DownloadRiskBoost: int := 30

  /** The label recorded for a detected download. */
  const AutoDownloadLabel: string := "auto-download"

  /** What `scoreUrl` returns; either field may be missing. */
  datatype ScoreResult = ScoreResult(risk: Option<int>, triggered: Option<seq<string>>)

  /** The collaborators defined outside the shown files. `scoreUrl` yields
      `None` where the call throws. */
  datatype Engine = Engine(
    scoreUrl: string -> Option<ScoreResult>,
    clampRisk: int -> int,
    containsAny: (string, seq<string>) -> bool,
    thresholdBlock: int,
    highRiskKeywords: seq<string>,
    mediumRiskKeywords: seq<string>)

  /** The fields of a download item that the handlers read. A missing string
      field is the empty string; `referrerUrl` stands for `referrer.url`. */
  datatype DownloadItem = DownloadItem(filename: string, url: string, referrerUrl: string, tabId: Option<int>)

  /** An open browser tab. */
  datatype Tab = Tab(id: int, url: string)

  /** The outcome of `chrome.tabs.get`: an error, a callback without a tab, or the tab's URL. */
  datatype TabLookup = LookupError | NoTab | Found(url: string)

  /** The values read back from extension storage; each may be missing. */
  datatype Stored = Stored(lastRisk: Option<int>, lastTriggered: Option<seq<string>>, lastUrl: Option<string>)

  /** What is persisted and broadcast as `RISK_ALERT`. */
  datatype Record = Record(risk: int, triggered: seq<string>, url: string)

  /** A tab navigated to the warning page for `orig` with risk `risk`. */
  datatype Redirect = Redirect(tabId: int, orig: string, risk: int)

  /** Everything one dangerous download changes. */
  datatype Reaction = Reaction(record: Record, redirects: seq<Redirect>)

  /** Why a download was handed to the dangerous-download handler. */
  datatype Trigger = ByFilename | ByInitiator

  // ---------------------------------------------------------------------------
  // Dangerous file names
  // ---------------------------------------------------------------------------

  /** `exts.some(ext => s.endsWith(ext))` */
  function SomeSuffix(s: string, exts: seq<string>): (r: bool)
    ensures r <==> exists i :: 0 <= i < |exts| && EndsWith(s, exts[i])
  {
    if exts == [] then false
    else EndsWith(s, exts[0]) || SomeSuffix(s, exts[1..])
  }

  /** A file name is dangerous when its lower-cased form ends with one of the
      listed extensions; an empty name never is. */
  function IsDangerousFilename(filename: string): (r: bool)
    ensures filename == "" ==> !r
    ensures r <==> exists ext :: ext in DangerousExt && EndsWith(Lower(filename), ext)
  {
    if filename == "" then false
    else SomeSuffix(Lower(filename), DangerousExt)
  }

  predicate HasDangerousTail(l: string) {
    (|l| >= 3 && l[|l| - 3..] == ".js") ||
    (|l| >= 4 && l[|l| - 4..] in {".exe", ".msi", ".apk", ".bat", ".cmd", ".scr", ".jar"})
  }

  lemma TailIsDangerous(filename: string)
    requires HasDangerousTail(Lower(filename))
    ensures IsDangerousFilename(filename)
  {
    var l := Lower(filename);
    if |l| >= 3 && l[|l| - 3..] == ".js" {
      assert ".js" in DangerousExt && EndsWith(l, ".js");
    } else {
      var ext := l[|l| - 4..];
      assert ext in DangerousExt && EndsWith(l, ext);
    }
  }

  /** An independent reading of the extension list: the last three lower-cased
      characters are ".js", or the last four are one of the seven
      four-character extensions. */
  lemma DangerousByTail(filename: string)
    ensures IsDangerousFilename(filename) <==> HasDangerousTail(Lower(filename))
  {
    var l := Lower(filename);
    if HasDangerousTail(l) {
      TailIsDangerous(filename);
    }
    if IsDangerousFilename(filename) {
      DangerousHasTail(filename);
    }
  }

  /** A text ending with the `i`-th listed extension has a dangerous tail. */
  lemma EndsWithListedTail(l: string, i: int)
    requires 0 <= i < |DangerousExt| && EndsWith(l, DangerousExt[i])
    ensures HasDangerousTail(l)
  {
    var ext := DangerousExt[i];
    if i == 7 {
      assert l[|l| - 3..] == ".js";
    } else {
      assert |ext| == 4;
      var tail := l[|l| - 4..];
      assert tail == ext;
      if i == 0 { assert tail == ".exe"; }
      else if i == 1 { assert tail == ".msi"; }
      else if i == 2 { assert tail == ".apk"; }
      else if i == 3 { assert tail == ".bat"; }
      else if i == 4 { assert tail == ".cmd"; }
      else if i == 5 { assert tail == ".scr"; }
      else { assert tail == ".jar"; }
    }
  }

  lemma DangerousHasTail(filename: string)
    requires IsDangerousFilename(filename)
    ensures HasDangerousTail(Lower(filename))
  {
    var l := Lower(filename);
    var ext :| ext in DangerousExt && EndsWith(l, ext);
    var i :| 0 <= i < |DangerousExt| && DangerousExt[i] == ext;
    EndsWithListedTail(l, i);
  }

  /** Changing the case of any letters of a name does not change the verdict. */
  lemma DangerousIgnoresCase(f: string, g: string)
    requires |f| == |g|
    requires forall i :: 0 <= i < |f| ==> LowerChar(f[i]) == LowerChar(g[i])
    ensures IsDangerousFilename(f) == IsDangerousFilename(g)
  {
    assert Lower(f) == Lower(g);
  }

  /** Every listed extension starts with a dot and has at least two more
      characters, so a dangerous name contains a dot and is at least three
      characters long. */
  lemma DangerousHasDot(filename: string)
    requires IsDangerousFilename(filename)
    ensures |filename| >= 3
    ensures '.' in filename
  {
    var l := Lower(filename);
    var ext :| ext in DangerousExt && EndsWith(l, ext);
    var k := |l| - |ext|;
    assert l[k] == ext[0] == '.';
    assert filename[k] == '.';
  }

  // ---------------------------------------------------------------------------
  // The onCreated dispatch decision
  // ---------------------------------------------------------------------------

  /** `downloadItem.filename || downloadItem.url || ""`: the file name, or
      the URL when there is no file name; empty only when both are. */
  function CandidateName(item: DownloadItem): (r: string)
    ensures r == item.filename || r == item.url
    ensures item.filename != "" ==> r == item.filename
    ensures r == "" <==> item.filename == "" && item.url == ""
  {
    if item.filename != "" then item.filename else item.url
  }

  /** `referrer.url` when present, else `downloadItem.url || ""`; empty only
      when both are. */
  function InitiatorUrl(item: DownloadItem): (r: string)
    ensures r == item.referrerUrl || r == item.url
    ensures item.referrerUrl != "" ==> r == item.referrerUrl
    ensures r == "" <==> item.referrerUrl == "" && item.url == ""
  {
    if item.referrerUrl != "" then item.referrerUrl else item.url
  }

  /** The decision of the `downloads.onCreated` listener: `Some(ByFilename)`
      when the file name (or, without one, the URL) is dangerous; otherwise
      `Some(ByInitiator)` when the initiating URL is non-empty and contains a
      high- or medium-risk keyword; otherwise `None` (the download is left
      alone). */
  function Classify(e: Engine, item: DownloadItem): (r: Option<Trigger>)
    ensures r == Some(ByFilename) <==>
      exists ext :: ext in DangerousExt && EndsWith(Lower(if item.filename != "" then item.filename else item.url), ext)
    ensures r == Some(ByInitiator) ==>
      item.referrerUrl + item.url != "" &&
      e.containsAny(InitiatorUrl(item), e.highRiskKeywords + e.mediumRiskKeywords)
    ensures r.Some? <==>
      IsDangerousFilename(CandidateName(item)) ||
      (InitiatorUrl(item) != "" && e.containsAny(InitiatorUrl(item), e.highRiskKeywords + e.mediumRiskKeywords))
  {
    if IsDangerousFilename(CandidateName(item)) then Some(ByFilename)
    else
      var initiator := InitiatorUrl(item);
      if initiator != "" && e.containsAny(initiator, e.highRiskKeywords + e.mediumRiskKeywords)
      then Some(ByInitiator)
      else None
  }

  /** With no file name the URL is classified in its place, and a non-empty
      file name hides the URL from the extension test. */
  lemma ClassifyFallsBackToUrl(e: Engine, item: DownloadItem)
    ensures item.filename == "" && IsDangerousFilename(item.url) ==> Classify(e, item) == Some(ByFilename)
    ensures item.filename != "" && !IsDangerousFilename(item.filename) ==> Classify(e, item) != Some(ByFilename)
  {
  }

  // ---------------------------------------------------------------------------
  // Risk escalation
  // ---------------------------------------------------------------------------

  /** Appends the auto-download label unless it is already present. */
  function AddAutoDownload(labels: seq<string>): (r: seq<string>)
    ensures AutoDownloadLabel in r
    ensures labels <= r
    ensures |r| <= |labels| + 1
    ensures forall x :: x in r <==> x in labels || x == AutoDownloadLabel
    ensures NoDuplicates(labels) ==> NoDuplicates(r)
  {
    if AutoDownloadLabel in labels then labels else labels + [AutoDownloadLabel]
  }

  /** Adding the label twice is the same as adding it once. */
  lemma AddAutoDownloadIdempotent(labels: seq<string>)
    ensures AddAutoDownload(AddAutoDownload(labels)) == AddAutoDownload(labels)
  {
  }

  /** The boosted risk from a base risk. */
  function Boost(e: Engine, base: int): int {
    e.clampRisk(base + DownloadRiskBoost)
  }

  /** The redirect one open tab gets: one when its URL is non-empty and
      starts with `url`, none otherwise. */
  function TabRedirect(t: Tab, url: string, risk: int): seq<Redirect> {
    if t.url != "" && StartsWith(t.url, url) then [Redirect(t.id, url, risk)] else []
  }

  /** The loop over the open tabs, visiting them in order. */
  function RedirectLoop(tabs: seq<Tab>, url: string, risk: int): seq<Redirect> {
    if tabs == [] then [] else TabRedirect(tabs[0], url, risk) + RedirectLoop(tabs[1..], url, risk)
  }

  lemma {:induction false} RedirectLoopSpec(tabs: seq<Tab>, url: string, risk: int)
    ensures |RedirectLoop(tabs, url, risk)| <= |tabs|
    ensures forall r :: r in RedirectLoop(tabs, url, risk) ==>
      r.orig == url && r.risk == risk &&
      exists t :: t in tabs && t.id == r.tabId && t.url != "" && StartsWith(t.url, url)
    ensures forall t :: t in tabs && t.url != "" && StartsWith(t.url, url) ==>
      Redirect(t.id, url, risk) in RedirectLoop(tabs, url, risk)
  {
    if tabs != [] {
      var t0 := tabs[0];
      var own := TabRedirect(t0, url, risk);
      var rest := RedirectLoop(tabs[1..], url, risk);
      RedirectLoopSpec(tabs[1..], url, risk);
      assert RedirectLoop(tabs, url, risk) == own + rest;
      forall r: Redirect | r in own + rest
        ensures r.orig == url && r.risk == risk
        ensures exists t :: t in tabs && t.id == r.tabId && t.url != "" && StartsWith(t.url, url)
      {
        if r in own {
          assert t0 in tabs;
        } else {
          var t :| t in tabs[1..] && t.id == r.tabId && t.url != "" && StartsWith(t.url, url);
          assert t in tabs;
        }
      }
      forall t | t in tabs && t.url != "" && StartsWith(t.url, url)
        ensures Redirect(t.id, url, risk) in own + rest
      {
        if t != t0 {
          assert tabs == [t0] + tabs[1..];
          assert t in tabs[1..];
        }
      }
    }
  }

  /** One warning-page redirect for every open tab whose URL is non-empty and
      starts with `url`; each redirect targets such a tab and carries `url`
      and `risk`. */
  function MatchingTabs(tabs: seq<Tab>, url: string, risk: int): (r: seq<Redirect>)
    ensures |r| <= |tabs|
    ensures forall k :: 0 <= k < |r| ==> r[k].orig == url && r[k].risk == risk
    ensures forall k :: 0 <= k < |r| ==>
      exists t :: t in tabs && t.id == r[k].tabId && t.url != "" && StartsWith(t.url, url)
    ensures forall t :: t in tabs && t.url != "" && StartsWith(t.url, url) ==> Redirect(t.id, url, risk) in r
  {
    RedirectLoopSpec(tabs, url, risk);
    var r := RedirectLoop(tabs, url, risk);
    assert forall k :: 0 <= k < |r| ==> r[k] in r;
    r
  }

  lemma {:induction false} RedirectLoopAppend(a: seq<Tab>, b: seq<Tab>, url: string, risk: int)
    ensures RedirectLoop(a + b, url, risk) == RedirectLoop(a, url, risk) + RedirectLoop(b, url, risk)
  {
    if a == [] {
      assert a + b == b;
    } else {
      assert (a + b)[0] == a[0] && (a + b)[1..] == a[1..] + b;
      RedirectLoopAppend(a[1..], b, url, risk);
    }
  }

  /** The redirects follow the tab order: matching the tabs of `a` then those
      of `b` gives the redirects for `a` followed by those for `b`. */
  lemma MatchingTabsInOrder(a: seq<Tab>, b: seq<Tab>, url: string, risk: int)
    ensures MatchingTabs(a + b, url, risk) == MatchingTabs(a, url, risk) + MatchingTabs(b, url, risk)
  {
    RedirectLoopAppend(a, b, url, risk);
  }

  /** A single tab yields its own redirect exactly when its non-empty URL
      starts with `url`. */
  lemma MatchingOneTab(t: Tab, url: string, risk: int)
    ensures MatchingTabs([t], url, risk) ==
      (if t.url != "" && StartsWith(t.url, url) then [Redirect(t.id, url, risk)] else [])
  {
    assert [t][0] == t && [t][1..] == [];
    assert RedirectLoop([t], url, risk) == TabRedirect(t, url, risk) + RedirectLoop([], url, risk);
  }

  /** The fallback without a usable tab: the stored risk is boosted, the label
      added, and when the boosted risk reaches the block threshold and a last
      URL is known, every open tab under that URL is redirected. */
  function BoostGlobal(e: Engine, stored: Stored, openTabs: seq<Tab>): (r: Reaction)
    ensures r.record.url == stored.lastUrl.GetOr("")
    ensures r.record.risk == Boost(e, stored.lastRisk.GetOr(0))
    ensures AutoDownloadLabel in r.record.triggered
    ensures stored.lastTriggered.GetOr([]) <= r.record.triggered
    ensures r.record.triggered == AddAutoDownload(stored.lastTriggered.GetOr([]))
    ensures r.redirects != [] ==> r.record.risk >= e.thresholdBlock && r.record.url != ""
    ensures forall k :: 0 <= k < |r.redirects| ==>
      exists t :: t in openTabs && t.id == r.redirects[k].tabId && StartsWith(t.url, r.record.url)
  {
    var base := stored.lastRisk.GetOr(0);
    var triggered := stored.lastTriggered.GetOr([]);
    var url := stored.lastUrl.GetOr("");
    var newRisk := Boost(e, base);
    var record := Record(newRisk, AddAutoDownload(triggered), url);
    if newRisk >= e.thresholdBlock && url != "" then Reaction(record, MatchingTabs(openTabs, url, newRisk))
    else Reaction(record, [])
  }

  /** The base risk of a URL: `scoreUrl(url).risk`, or 0 when it is missing or the call throws. */
  function BaseRisk(e: Engine, url: string): (r: int)
    ensures r != 0 ==> e.scoreUrl(url).Some? && e.scoreUrl(url).value.risk == Some(r)
    ensures e.scoreUrl(url).Some? && e.scoreUrl(url).value.risk.Some? ==> r == e.scoreUrl(url).value.risk.value
  {
    match e.scoreUrl(url)
    case None => 0
    case Some(res) => res.risk.GetOr(0)
  }

  /** The labels of a URL: `scoreUrl(url).triggered`, or none when missing or the call throws. */
  function BaseTriggered(e: Engine, url: string): (r: seq<string>)
    ensures r != [] ==> e.scoreUrl(url).Some? && e.scoreUrl(url).value.triggered == Some(r)
    ensures e.scoreUrl(url).Some? && e.scoreUrl(url).value.triggered.Some? ==> r == e.scoreUrl(url).value.triggered.value
  {
    match e.scoreUrl(url)
    case None => []
    case Some(res) => res.triggered.GetOr([])
  }

  /** `handleDangerousDownload`. Without a numeric tab id, or when the tab
      lookup fails, the stored result is escalated instead. With a tab, the
      tab's URL (or the download URL) is scored, boosted and recorded, and the
      tab itself is redirected when the boosted risk reaches the block
      threshold. When the lookup reports no tab and no error, the record is
      written but building the notification text fails before the redirect. */
  function HandleDangerousDownload(e: Engine, item: DownloadItem, lookup: TabLookup,
                                   stored: Stored, openTabs: seq<Tab>): (r: Reaction)
    ensures AutoDownloadLabel in r.record.triggered
    ensures |r.redirects| <= |openTabs| + 1
    ensures item.tabId.Some? && !lookup.LookupError? ==>
      |r.redirects| <= 1 && forall k :: 0 <= k < |r.redirects| ==> r.redirects[k].tabId == item.tabId.value
    ensures forall k :: 0 <= k < |r.redirects| ==>
      r.redirects[k].risk == r.record.risk >= e.thresholdBlock && r.redirects[k].orig == r.record.url
  {
    match item.tabId
    case None => BoostGlobal(e, stored, openTabs)
    case Some(id) =>
      match lookup
      case LookupError => BoostGlobal(e, stored, openTabs)
      case NoTab =>
        var url := item.url;
        Reaction(Record(Boost(e, BaseRisk(e, url)), AddAutoDownload(BaseTriggered(e, url)), url), [])
      case Found(tabUrl) =>
        var url := if tabUrl != "" then tabUrl else item.url;
        var newRisk := Boost(e, BaseRisk(e, url));
        var record := Record(newRisk, AddAutoDownload(BaseTriggered(e, url)), url);
        if newRisk >= e.thresholdBlock then Reaction(record, [Redirect(id, url, newRisk)])
        else Reaction(record, [])
  }

  /** With a tab found, the tab's URL (or the download URL) is recorded with
      its boosted risk and the score's labels plus the added one, and that tab
      (and only it) is redirected exactly when the boosted risk reaches the
      block threshold. */
  lemma TabRedirectIff(e: Engine, item: DownloadItem, id: int, tabUrl: string, stored: Stored, openTabs: seq<Tab>)
    requires item.tabId == Some(id)
    ensures var r := HandleDangerousDownload(e, item, Found(tabUrl), stored, openTabs);
      var url := if tabUrl != "" then tabUrl else item.url;
      && r.record.url == url
      && r.record.risk == e.clampRisk(BaseRisk(e, url) + DownloadRiskBoost)
      && BaseTriggered(e, url) <= r.record.triggered
      && r.record.triggered == AddAutoDownload(BaseTriggered(e, url))
      && (r.redirects != [] <==> e.clampRisk(BaseRisk(e, url) + DownloadRiskBoost) >= e.thresholdBlock)
      && (forall k :: 0 <= k < |r.redirects| ==> r.redirects[k].tabId == id)
  {
  }

  /** In the fallback a tab is redirected exactly when the boosted stored risk
      reaches the threshold, a last URL is stored, and the tab's URL starts with it. */
  lemma FallbackRedirectIff(e: Engine, stored: Stored, openTabs: seq<Tab>, t: Tab)
    requires t in openTabs
    requires forall a, b :: a in openTabs && b in openTabs && a.id == b.id ==> a == b
    requires stored.lastUrl.GetOr("") != ""
    ensures var r := BoostGlobal(e, stored, openTabs);
      Redirect(t.id, r.record.url, r.record.risk) in r.redirects <==>
        e.clampRisk(stored.lastRisk.GetOr(0) + DownloadRiskBoost) >= e.thresholdBlock && StartsWith(t.url, stored.lastUrl.GetOr(""))
  {
    var r := BoostGlobal(e, stored, openTabs);
    var url := stored.lastUrl.GetOr("");
    if Redirect(t.id, url, r.record.risk) in r.redirects {
      var k :| 0 <= k < |r.redirects| && r.redirects[k] == Redirect(t.id, url, r.record.risk);
      assert r.redirects != [];
    }
  }

  /** Without a numeric tab id, or when the tab lookup reports an error, the
      handler does exactly what the global fallback does. */
  lemma HandleFallsBackToGlobal(e: Engine, item: DownloadItem, lookup: TabLookup, stored: Stored, openTabs: seq<Tab>)
    requires item.tabId.None? || lookup.LookupError?
    ensures HandleDangerousDownload(e, item, lookup, stored, openTabs) == BoostGlobal(e, stored, openTabs)
  {
  }

  /** When the lookup yields neither an error nor a tab, the download URL is
      recorded with its boosted risk and labels, and no tab is redirected. */
  lemma HandleNoTab(e: Engine, item: DownloadItem, stored: Stored, openTabs: seq<Tab>)
    requires item.tabId.Some?
    ensures var r := HandleDangerousDownload(e, item, NoTab, stored, openTabs);
      && r.record.url == item.url
      && r.record.risk == e.clampRisk(BaseRisk(e, item.url) + DownloadRiskBoost)
      && r.record.triggered == AddAutoDownload(BaseTriggered(e, item.url))
      && r.redirects == []
  {
  }

  /** The listener end to end: a download that is not classified dangerous
      changes nothing; one that is gets the handler's reaction. */
  function OnCreated(e: Engine, item: DownloadItem, lookup: TabLookup,
                     stored: Stored, openTabs: seq<Tab>): (r: Option<Reaction>)
    ensures r.Some? <==> Classify(e, item).Some?
    ensures r.Some? ==> AutoDownloadLabel in r.value.record.triggered
    ensures r.Some? ==> r.value == HandleDangerousDownload(e, item, lookup, stored, openTabs)
  {
    if Classify(e, item).Some? then Some(HandleDangerousDownload(e, item, lookup, stored, openTabs))
    else None
  }
}

=== FILE: freq_sort.dfy ===
/** Ordering of mined keywords by descending frequency. Python's `sorted` with
    `reverse=True` is stable: keywords of equal frequency keep their input
    order. The model is an insertion sort, and the lemmas show it is the one
    sequence that is ordered and keeps each frequency class in input order. */
module FreqSort {

  /** A `(word, freq)` pair of the keyword list. */
  datatype Keyword = Keyword(word: string, freq: nat)

  /** Frequencies never increase along the sequence. */
  predicate SortedDesc(s: seq<Keyword>) {
    forall i, j :: 0 <= i < j < |s| ==> s[i].freq >= s[j].freq
  }

  /** The keywords of frequency `f`, in their order in `s`. */
  function WithFreq(s: seq<Keyword>, f: nat): seq<Keyword> {
    if s == [] then [] else (if s[0].freq == f then [s[0]] else []) + WithFreq(s[1..], f)
  }

  /** Places `k` in front of the first entry whose frequency is not larger. */
  function Insert(k: Keyword, s: seq<Keyword>): (r: seq<Keyword>)
    ensures multiset(r) == multiset(s) + multiset{k}
  {
    if s == [] then [k]
    else if s[0].freq > k.freq then
      assert s == [s[0]] + s[1..];
      [s[0]] + Insert(k, s[1..])
    else [k] + s
  }

  lemma {:induction false} InsertMembers(k: Keyword, s: seq<Keyword>)
    ensures forall x :: x in Insert(k, s) <==> x == k || x in s
  {
    if s != [] && s[0].freq > k.freq {
      InsertMembers(k, s[1..]);
      assert s == [s[0]] + s[1..];
    }
  }

  /** Inserting into an ordered sequence keeps it ordered. */
  lemma {:induction false} InsertSorted(k: Keyword, s: seq<Keyword>)
    requires SortedDesc(s)
    ensures SortedDesc(Insert(k, s))
  {
    if s != [] && s[0].freq > k.freq {
      var rest := Insert(k, s[1..]);
      InsertSorted(k, s[1..]);
      InsertMembers(k, s[1..]);
      var r := [s[0]] + rest;
      assert Insert(k, s) == r;
      forall j | 0 < j < |r|
        ensures r[0].freq >= r[j].freq
      {
        assert r[j] == rest[j - 1];
        assert rest[j - 1] in rest;
        if rest[j - 1] != k {
          var m :| 0 <= m < |s[1..]| && s[1..][m] == rest[j - 1];
          assert s[m + 1] == rest[j - 1];
        }
      }
    }
  }

  /** `sorted(s, key=lambda x: x[1], reverse=True)`: a permutation with
      non-increasing frequencies. */
  function SortByFreq(s: seq<Keyword>): (r: seq<Keyword>)
    ensures multiset(r) == multiset(s)
    ensures SortedDesc(r)
  {
    if s == [] then [] else
      assert s == [s[0]] + s[1..];
      InsertSorted(s[0], SortByFreq(s[1..]));
      Insert(s[0], SortByFreq(s[1..]))
  }

  lemma {:induction false} WithFreqMember(s: seq<Keyword>, f: nat, x: Keyword)
    ensures x in WithFreq(s, f) <==> x in s && x.freq == f
  {
    if s != [] {
      WithFreqMember(s[1..], f, x);
      assert s == [s[0]] + s[1..];
    }
  }

  lemma WithFreqCons(x: Keyword, s: seq<Keyword>, f: nat)
    ensures WithFreq([x] + s, f) == (if x.freq == f then [x] else []) + WithFreq(s, f)
  {
    assert ([x] + s)[0] == x && ([x] + s)[1..] == s;
  }

  /** The keyword `x` as a one-element frequency class of `f`, or nothing. */
  function ClassOf(x: Keyword, f: nat): seq<Keyword> {
    if x.freq == f then [x] else []
  }

  lemma SwapEmpty(p: seq<Keyword>, q: seq<Keyword>, a: seq<Keyword>)
    requires p == [] || q == []
    ensures p + (q + a) == q + (p + a)
  {
    if p == [] {
      assert p + (q + a) == q + a;
      assert p + a == a;
    } else {
      assert q + (p + a) == p + a;
      assert q + a == a;
    }
  }

  /** Passing over an entry of larger frequency: the step of the induction below. */
  lemma InsertStableSkip(k: Keyword, s: seq<Keyword>, f: nat)
    requires s != [] && s[0].freq > k.freq
    requires WithFreq(Insert(k, s[1..]), f) == ClassOf(k, f) + WithFreq(s[1..], f)
    ensures WithFreq(Insert(k, s), f) == ClassOf(k, f) + WithFreq(s, f)
  {
    var rest := Insert(k, s[1..]);
    var a := WithFreq(s[1..], f);
    assert Insert(k, s) == [s[0]] + rest;
    WithFreqCons(s[0], rest, f);
    assert s == [s[0]] + s[1..];
    WithFreqCons(s[0], s[1..], f);
    SwapEmpty(ClassOf(s[0], f), ClassOf(k, f), a);
  }

  /** Inserting `k` adds it in front of the keywords of its own frequency and
      leaves every other frequency class as it was. */
  lemma {:induction false} InsertStable(k: Keyword, s: seq<Keyword>, f: nat)
    ensures WithFreq(Insert(k, s), f) == ClassOf(k, f) + WithFreq(s, f)
  {
    if s == [] {
      WithFreqCons(k, [], f);
    } else if s[0].freq > k.freq {
      InsertStable(k, s[1..], f);
      InsertStableSkip(k, s, f);
    } else {
      WithFreqCons(k, s, f);
    }
  }

  /** The sort is stable: for every frequency, the keywords with that
      frequency appear in the same order as in the input. */
  lemma {:induction false} SortStable(s: seq<Keyword>, f: nat)
    ensures WithFreq(SortByFreq(s), f) == WithFreq(s, f)
  {
    if s != [] {
      SortStable(s[1..], f);
      InsertStable(s[0], SortByFreq(s[1..]), f);
    }
  }

  /** Being ordered and keeping every frequency class in order determines
      the sequence: any such sequence is the result of the sort. */
  lemma {:induction false} StableSortUnique(t: seq<Keyword>, u: seq<Keyword>)
    requires SortedDesc(t) && SortedDesc(u)
    requires forall f :: WithFreq(t, f) == WithFreq(u, f)
    ensures t == u
    decreases |t|
  {
    if t != [] {
      SortedHeadInOwnClass(t);
      SortedHeadInOwnClass(u);
      assert u != [] by {
        assert WithFreq(u, t[0].freq) != [];
      }
      var f := t[0].freq;
      var g := u[0].freq;
      WithFreqMember(u, f, t[0]);
      WithFreqMember(t, g, u[0]);
      var i :| 0 <= i < |u| && u[i] == t[0];
      var j :| 0 <= j < |t| && t[j] == u[0];
      assert f == g;
      assert t[0] == u[0] by {
        assert WithFreq(t, f)[0] == t[0];
        assert WithFreq(u, f)[0] == u[0];
      }
      forall h: nat
        ensures WithFreq(t[1..], h) == WithFreq(u[1..], h)
      {
        assert WithFreq(t, h) == WithFreq(u, h);
        WithFreqCons(t[0], t[1..], h);
        WithFreqCons(u[0], u[1..], h);
        assert t == [t[0]] + t[1..] && u == [u[0]] + u[1..];
        var p := if f == h then [t[0]] else [];
        assert WithFreq(t[1..], h) == (p + WithFreq(t[1..], h))[|p|..];
        assert WithFreq(u[1..], h) == (p + WithFreq(u[1..], h))[|p|..];
      }
      StableSortUnique(t[1..], u[1..]);
      assert t == [t[0]] + t[1..] && u == [u[0]] + u[1..];
    } else if u != [] {
      SortedHeadInOwnClass(u);
    }
  }

  lemma SortedHeadInOwnClass(s: seq<Keyword>)
    requires s != []
    ensures WithFreq(s, s[0].freq) == [s[0]] + WithFreq(s[1..], s[0].freq)
  {
  }

  /** The sort result is the only ordered arrangement that keeps each
      frequency class in input order. */
  lemma SortIsStableSort(s: seq<Keyword>, t: seq<Keyword>)
    requires SortedDesc(t)
    requires forall f :: WithFreq(t, f) == WithFreq(s, f)
    ensures t == SortByFreq(s)
  {
    forall f ensures WithFreq(t, f) == WithFreq(SortByFreq(s), f) {
      SortStable(s, f);
    }
    StableSortUnique(t, SortByFreq(s));
  }

  /** Within every frequency class the ranks of the words increase along
      the sequence. */
  predicate TiesByRank(s: seq<Keyword>, rank: string -> int) {
    forall i, j :: 0 <= i < j < |s| && s[i].freq == s[j].freq ==> rank(s[i].word) < rank(s[j].word)
  }

  lemma TiesTail(s: seq<Keyword>, rank: string -> int)
    requires s != [] && TiesByRank(s, rank)
    ensures TiesByRank(s[1..], rank)
  {
    var tail := s[1..];
    forall i, j | 0 <= i < j < |tail| && tail[i].freq == tail[j].freq
      ensures rank(tail[i].word) < rank(tail[j].word)
    {
      assert tail[i] == s[i + 1] && tail[j] == s[j + 1];
    }
  }

  lemma TiesCons(x: Keyword, t: seq<Keyword>, rank: string -> int)
    requires TiesByRank(t, rank)
    requires forall y :: y in t && y.freq == x.freq ==> rank(x.word) < rank(y.word)
    ensures TiesByRank([x] + t, rank)
  {
    var r := [x] + t;
    forall i, j | 0 <= i < j < |r| && r[i].freq == r[j].freq
      ensures rank(r[i].word) < rank(r[j].word)
    {
      assert r[j] == t[j - 1];
      if i == 0 {
        assert t[j - 1] in t;
      } else {
        assert r[i] == t[i - 1];
      }
    }
  }

  lemma TiesSnoc(t: seq<Keyword>, x: Keyword, rank: string -> int)
    requires TiesByRank(t, rank)
    requires forall y :: y in t && y.freq == x.freq ==> rank(y.word) < rank(x.word)
    ensures TiesByRank(t + [x], rank)
  {
    var r := t + [x];
    forall i, j | 0 <= i < j < |r| && r[i].freq == r[j].freq
      ensures rank(r[i].word) < rank(r[j].word)
    {
      assert r[i] == t[i];
      if j < |t| {
        assert r[j] == t[j];
      } else {
        assert t[i] in t;
      }
    }
  }

  /** Inserting a keyword ranked below every keyword of its own frequency
      keeps the ties ordered by rank. */
  lemma {:induction false} InsertKeepsTies(k: Keyword, s: seq<Keyword>, rank: string -> int)
    requires TiesByRank(s, rank)
    requires forall x :: x in s && x.freq == k.freq ==> rank(k.word) < rank(x.word)
    ensures TiesByRank(Insert(k, s), rank)
  {
    if s == [] {
    } else if s[0].freq > k.freq {
      var tail := s[1..];
      TiesTail(s, rank);
      InsertKeepsTies(k, tail, rank);
      InsertMembers(k, tail);
      var rest := Insert(k, tail);
      forall y | y in rest && y.freq == s[0].freq
        ensures rank(s[0].word) < rank(y.word)
      {
        var m :| 0 <= m < |tail| && tail[m] == y;
        assert s[m + 1] == y;
      }
      TiesCons(s[0], rest, rank);
    } else {
      TiesCons(k, s, rank);
    }
  }

  /** Sorting keeps the ties ordered by rank: a consequence of stability. */
  lemma {:induction false} SortKeepsTies(s: seq<Keyword>, rank: string -> int)
    requires TiesByRank(s, rank)
    ensures TiesByRank(SortByFreq(s), rank)
  {
    if s != [] {
      var tail := s[1..];
      TiesTail(s, rank);
      SortKeepsTies(tail, rank);
      var sorted := SortByFreq(tail);
      forall x | x in sorted && x.freq == s[0].freq
        ensures rank(s[0].word) < rank(x.word)
      {
        assert x in multiset(sorted);
        assert x in multiset(tail);
        var m :| 0 <= m < |tail| && tail[m] == x;
        assert s[m + 1] == x;
      }
      InsertKeepsTies(s[0], sorted, rank);
    }
  }
}

=== FILE: keyword_miner.dfy ===
/** The keyword-mining script: tokenise every malicious and benign URL, count
    the words, keep the words that occur more than once and more often in the
    malicious corpus than in the benign one, order them by descending count and
    report at most forty. The corpora are given as sequences of lines. */
module KeywordMiner {
  import opened Text
  import opened UrlTokens
  import opened FreqSort

  /** How many keywords the script reports. */
  const TopCount: nat := 40

  // ---------------------------------------------------------------------------
  // Word lists
  // ---------------------------------------------------------------------------

  /** The words of all lines, line after line: `words.extend(clean_url(url))`
      for each line in order. */
  function WordsOf(lines: seq<string>): seq<string> {
    if lines == [] then []
    else WordsOf(lines[..|lines| - 1]) + CleanUrl(lines[|lines| - 1])
  }

  /** The accumulation loop of the script. */
  method CollectWords(lines: seq<string>) returns (words: seq<string>)
    ensures words == WordsOf(lines)
  {
    words := [];
    for i := 0 to |lines|
      invariant words == WordsOf(lines[..i])
    {
      assert lines[..i + 1][..i] == lines[..i];
      words := words + CleanUrl(lines[i]);
    }
    assert lines[..|lines|] == lines;
  }

  /** Reading two batches of lines one after the other gives the words of the
      first batch followed by those of the second. */
  lemma {:induction false} WordsOfAppend(a: seq<string>, b: seq<string>)
    ensures WordsOf(a + b) == WordsOf(a) + WordsOf(b)
    decreases |b|
  {
    if b == [] {
      assert a + b == a;
    } else {
      var n := |b| - 1;
      var ab := a + b;
      assert ab != [];
      assert ab[..|ab| - 1] == a + b[..n];
      assert ab[|ab| - 1] == b[n];
      assert WordsOf(ab) == WordsOf(a + b[..n]) + CleanUrl(b[n]);
      WordsOfAppend(a, b[..n]);
      assert WordsOf(b) == WordsOf(b[..n]) + CleanUrl(b[n]);
    }
  }

  /** A word of the list comes from some line's tokens and is a token. */
  lemma {:induction false} WordsOfSource(lines: seq<string>, w: string)
    requires w in WordsOf(lines)
    ensures exists i :: 0 <= i < |lines| && w in CleanUrl(lines[i])
    ensures IsToken(w)
    decreases |lines|
  {
    var n := |lines| - 1;
    var init := lines[..n];
    assert WordsOf(lines) == WordsOf(init) + CleanUrl(lines[n]);
    if w in CleanUrl(lines[n]) {
      var k :| 0 <= k < |CleanUrl(lines[n])| && CleanUrl(lines[n])[k] == w;
    } else {
      WordsOfSource(init, w);
      var i :| 0 <= i < |init| && w in CleanUrl(init[i]);
      assert lines[i] == init[i];
    }
  }

  /** Every token of every line is in the list. */
  lemma {:induction false} WordsOfHas(lines: seq<string>, i: int, w: string)
    requires 0 <= i < |lines| && w in CleanUrl(lines[i])
    ensures w in WordsOf(lines)
    decreases |lines|
  {
    var n := |lines| - 1;
    var init := lines[..n];
    assert WordsOf(lines) == WordsOf(init) + CleanUrl(lines[n]);
    if i < n {
      assert init[i] == lines[i];
      WordsOfHas(init, i, w);
    }
  }

  /** A word is in the list exactly when some line's tokens contain it; every
      word in the list is a token. */
  lemma WordsOfMembers(lines: seq<string>, w: string)
    ensures w in WordsOf(lines) <==> exists i :: 0 <= i < |lines| && w in CleanUrl(lines[i])
    ensures w in WordsOf(lines) ==> IsToken(w)
  {
    if w in WordsOf(lines) {
      WordsOfSource(lines, w);
    }
    if exists i :: 0 <= i < |lines| && w in CleanUrl(lines[i]) {
      var i :| 0 <= i < |lines| && w in CleanUrl(lines[i]);
      WordsOfHas(lines, i, w);
    }
  }

  // ---------------------------------------------------------------------------
  // Counting
  // ---------------------------------------------------------------------------

  /** The distinct words in order of first occurrence: the key order of
      `Counter(words)`. */
  function Distinct(words: seq<string>): (d: seq<string>)
    ensures forall w :: w in d <==> w in words
    ensures NoDuplicates(d)
  {
    if words == [] then []
    else
      var init := words[..|words| - 1];
      var last := words[|words| - 1];
      assert words == init + [last];
      var d := Distinct(init);
      if last in d then d else d + [last]
  }

  /** Position of the first occurrence of `w`. */
  function FirstIndex(words: seq<string>, w: string): (i: nat)
    requires w in words
    ensures i < |words| && words[i] == w
    ensures forall j :: 0 <= j < i ==> words[j] != w
  {
    if words[0] == w then 0 else 1 + FirstIndex(words[1..], w)
  }

  lemma FirstIndexExtend(words: seq<string>, x: string, w: string)
    requires w in words
    ensures FirstIndex(words + [x], w) == FirstIndex(words, w)
  {
    var i := FirstIndex(words, w);
    var j := FirstIndex(words + [x], w);
    assert forall m :: 0 <= m < |words| ==> (words + [x])[m] == words[m];
  }

  /** The distinct words are listed in the order in which each first occurs. */
  lemma {:induction false} DistinctFirstSeen(words: seq<string>)
    ensures forall i, j :: 0 <= i < j < |Distinct(words)| ==>
      FirstIndex(words, Distinct(words)[i]) < FirstIndex(words, Distinct(words)[j])
  {
    if words != [] {
      var init := words[..|words| - 1];
      var last := words[|words| - 1];
      assert words == init + [last];
      DistinctFirstSeen(init);
      var d := Distinct(init);
      forall w | w in d
        ensures FirstIndex(words, w) == FirstIndex(init, w)
      {
        FirstIndexExtend(init, last, w);
      }
      if last !in d {
        assert last !in init;
        assert FirstIndex(words, last) == |init|;
      }
    }
  }

  /** A word read after `ws` is a new key exactly when it has not been seen. */
  lemma DistinctSnoc(ws: seq<string>, w: string)
    ensures Distinct(ws + [w]) == if w in ws then Distinct(ws) else Distinct(ws) + [w]
  {
    var a := ws + [w];
    assert a[..|a| - 1] == ws && a[|a| - 1] == w;
  }

  /** One step of counting: reading `w` after `pre` either bumps its count
      or adds it as a new key with count 1. */
  lemma TallyStep(pre: seq<string>, w: string, order: seq<string>, counts: map<string, nat>)
    requires order == Distinct(pre)
    requires forall x :: x in counts <==> x in pre
    requires forall x :: x in counts ==> counts[x] == multiset(pre)[x]
    ensures var counts' := if w in counts then counts[w := counts[w] + 1] else counts[w := 1];
      && (if w in counts then order else order + [w]) == Distinct(pre + [w])
      && (forall x :: x in counts' <==> x in pre + [w])
      && (forall x :: x in counts' ==> counts'[x] == multiset(pre + [w])[x])
  {
    DistinctSnoc(pre, w);
    assert multiset(pre + [w]) == multiset(pre) + multiset{w};
    assert forall x :: x in pre + [w] <==> x in pre || x == w;
  }

  /** `Counter(words)`: the distinct words in first-occurrence order, and a
      map from each word to the number of its occurrences. */
  method Tally(words: seq<string>) returns (order: seq<string>, counts: map<string, nat>)
    ensures order == Distinct(words)
    ensures forall w :: w in counts <==> w in words
    ensures forall w :: w in counts ==> counts[w] == multiset(words)[w]
  {
    order := [];
    counts := map[];
    for i := 0 to |words|
      invariant order == Distinct(words[..i])
      invariant forall w :: w in counts <==> w in words[..i]
      invariant forall w :: w in counts ==> counts[w] == multiset(words[..i])[w]
    {
      var w := words[i];
      assert words[..i + 1] == words[..i] + [w];
      TallyStep(words[..i], w, order, counts);
      if w in counts {
        counts := counts[w := counts[w] + 1];
      } else {
        order := order + [w];
        counts := counts[w := 1];
      }
    }
    assert words[..|words|] == words;
  }

  // ---------------------------------------------------------------------------
  // Selection
  // ---------------------------------------------------------------------------

  /** The selection rule: more than one malicious occurrence, and more
      malicious than benign occurrences (a word absent from the benign corpus
      counts 0 there). */
  predicate Keep(mal: seq<string>, benign: seq<string>, w: string) {
    multiset(mal)[w] > 1 && multiset(mal)[w] > multiset(benign)[w]
  }

  /** The kept words of `order`, each paired with its malicious count, in order. */
  function Kept(order: seq<string>, mal: seq<string>, benign: seq<string>): seq<Keyword> {
    if order == [] then []
    else
      var w := order[|order| - 1];
      Kept(order[..|order| - 1], mal, benign) +
        (if Keep(mal, benign, w) then [Keyword(w, multiset(mal)[w])] else [])
  }

  /** The keyword list before sorting. */
  function Selected(mal: seq<string>, benign: seq<string>): seq<Keyword> {
    Kept(Distinct(mal), mal, benign)
  }

  /** The words of a keyword list. */
  function WordsOfKeywords(ks: seq<Keyword>): seq<string> {
    seq(|ks|, i requires 0 <= i < |ks| => ks[i].word)
  }

  lemma {:induction false} KeptSpec(order: seq<string>, mal: seq<string>, benign: seq<string>)
    requires NoDuplicates(order)
    ensures forall k :: k in Kept(order, mal, benign) ==>
      k.word in order && Keep(mal, benign, k.word) && k.freq == multiset(mal)[k.word]
    ensures forall w :: w in order && Keep(mal, benign, w) ==> Keyword(w, multiset(mal)[w]) in Kept(order, mal, benign)
    ensures NoDuplicates(WordsOfKeywords(Kept(order, mal, benign)))
  {
    if order != [] {
      var n := |order| - 1;
      var init := order[..n];
      assert order == init + [order[n]];
      assert order[n] !in init;
      KeptSpec(init, mal, benign);
      var ks := Kept(init, mal, benign);
      var r := Kept(order, mal, benign);
      assert forall k :: k in ks ==> k.word != order[n];
      forall i, j | 0 <= i < j < |r|
        ensures WordsOfKeywords(r)[i] != WordsOfKeywords(r)[j]
      {
        if j == |ks| {
          assert r[i] in ks;
        } else {
          assert r[i] == ks[i] && r[j] == ks[j];
          assert WordsOfKeywords(ks)[i] != WordsOfKeywords(ks)[j];
        }
      }
    }
  }

  /** A keyword is selected exactly when its word passes the rule, it carries
      the word's malicious count, and no word is selected twice. */
  lemma SelectedSpec(mal: seq<string>, benign: seq<string>)
    ensures forall k :: k in Selected(mal, benign) ==>
      Keep(mal, benign, k.word) && k.freq == multiset(mal)[k.word]
    ensures forall w :: Keep(mal, benign, w) <==> Keyword(w, multiset(mal)[w]) in Selected(mal, benign)
    ensures NoDuplicates(WordsOfKeywords(Selected(mal, benign)))
  {
    KeptSpec(Distinct(mal), mal, benign);
  }

  // ---------------------------------------------------------------------------
  // Ordering and the top forty
  // ---------------------------------------------------------------------------

  /** `keywords[:n]` */
  function Take(s: seq<Keyword>, n: nat): (r: seq<Keyword>)
    ensures |r| == if |s| <= n then |s| else n
    ensures r <= s
  {
    if |s| <= n then s else s[..n]
  }

  /** The whole script on two corpora given as lines. */
  function SuspiciousKeywords(malLines: seq<string>, benignLines: seq<string>): seq<Keyword> {
    Take(SortByFreq(Selected(WordsOf(malLines), WordsOf(benignLines))), TopCount)
  }

  /** Keeping from a list one word longer: the new word is appended when it
      passes the rule. */
  lemma KeptSnoc(order: seq<string>, i: int, mal: seq<string>, benign: seq<string>)
    requires 0 <= i < |order|
    ensures Kept(order[..i + 1], mal, benign) == Kept(order[..i], mal, benign) +
      (if Keep(mal, benign, order[i]) then [Keyword(order[i], multiset(mal)[order[i]])] else [])
  {
    assert order[..i + 1][..i] == order[..i];
  }

  /** The selection loop over the counter's items, reading the counts from
      the two maps (a word missing from the benign map counts 0). */
  method SelectKeywords(malOrder: seq<string>, malCounts: map<string, nat>, benignCounts: map<string, nat>,
                        malWords: seq<string>, benignWords: seq<string>) returns (keywords: seq<Keyword>)
    requires forall w :: w in malOrder ==> w in malCounts
    requires forall w :: w in malCounts ==> malCounts[w] == multiset(malWords)[w]
    requires forall w :: w in benignCounts <==> w in benignWords
    requires forall w :: w in benignCounts ==> benignCounts[w] == multiset(benignWords)[w]
    ensures keywords == Kept(malOrder, malWords, benignWords)
  {
    keywords := [];
    for i := 0 to |malOrder|
      invariant keywords == Kept(malOrder[..i], malWords, benignWords)
    {
      var word := malOrder[i];
      var freq := malCounts[word];
      var benignFreq := if word in benignCounts then benignCounts[word] else 0;
      assert benignFreq == multiset(benignWords)[word];
      KeptSnoc(malOrder, i, malWords, benignWords);
      if freq > 1 && freq > benignFreq {
        keywords := keywords + [Keyword(word, freq)];
      }
    }
    assert malOrder[..|malOrder|] == malOrder;
  }

  /** The script, step by step as it is written: collect, count, select,
      sort, cut. */
  method ExtractKeywords(malLines: seq<string>, benignLines: seq<string>) returns (top: seq<Keyword>)
    ensures top == SuspiciousKeywords(malLines, benignLines)
    ensures |top| <= TopCount
    ensures SortedDesc(top)
  {
    var malWords := CollectWords(malLines);
    var benignWords := CollectWords(benignLines);
    var malOrder, malCounts := Tally(malWords);
    var _, benignCounts := Tally(benignWords);
    var keywords := SelectKeywords(malOrder, malCounts, benignCounts, malWords, benignWords);
    var sorted := SortByFreq(keywords);
    top := Take(sorted, TopCount);
  }

  /** Cutting an ordered list keeps its words distinct, and whatever is cut
      off is no more frequent than everything kept, which fills the list. */
  lemma TakeOfSorted(sorted: seq<Keyword>, n: nat)
    requires SortedDesc(sorted)
    requires NoDuplicates(WordsOfKeywords(sorted))
    ensures SortedDesc(Take(sorted, n))
    ensures NoDuplicates(WordsOfKeywords(Take(sorted, n)))
    ensures forall kw :: kw in sorted && kw.word !in WordsOfKeywords(Take(sorted, n)) ==>
      |Take(sorted, n)| == n && forall k :: k in Take(sorted, n) ==> k.freq >= kw.freq
  {
    var top := Take(sorted, n);
    forall i, j | 0 <= i < j < |top|
      ensures WordsOfKeywords(top)[i] != WordsOfKeywords(top)[j]
    {
      assert WordsOfKeywords(sorted)[i] != WordsOfKeywords(sorted)[j];
    }
    forall kw | kw in sorted && kw.word !in WordsOfKeywords(top)
      ensures |top| == n && forall k :: k in top ==> k.freq >= kw.freq
    {
      var p :| 0 <= p < |sorted| && sorted[p] == kw;
      assert forall q :: 0 <= q < |top| ==> WordsOfKeywords(top)[q] == sorted[q].word;
      forall k | k in top
        ensures k.freq >= kw.freq
      {
        var q :| 0 <= q < |top| && top[q] == k;
        assert sorted[q] == k;
      }
    }
  }

  /** What the script reports: at most forty distinct words, each passing the
      rule and shown with its malicious count, in non-increasing count order;
      and a word that passes the rule but is not shown is only missing because
      forty words at least as frequent fill the list. */
  lemma SuspiciousKeywordsSpec(malLines: seq<string>, benignLines: seq<string>)
    ensures var mal := WordsOf(malLines);
      var benign := WordsOf(benignLines);
      var top := SuspiciousKeywords(malLines, benignLines);
      && |top| <= TopCount
      && SortedDesc(top)
      && NoDuplicates(WordsOfKeywords(top))
      && (forall k :: k in top ==> Keep(mal, benign, k.word) && k.freq == multiset(mal)[k.word])
      && (forall w :: Keep(mal, benign, w) && w !in WordsOfKeywords(top) ==>
            |top| == TopCount && forall k :: k in top ==> k.freq >= multiset(mal)[w])
  {
    var mal := WordsOf(malLines);
    var benign := WordsOf(benignLines);
    var sel := Selected(mal, benign);
    var sorted := SortByFreq(sel);
    var top := Take(sorted, TopCount);
    SelectedSpec(mal, benign);
    assert forall k :: k in sorted ==> k in sel by {
      forall k | k in sorted ensures k in sel {
        assert k in multiset(sorted);
      }
    }
    assert forall k :: k in sel ==> k in sorted by {
      forall k | k in sel ensures k in sorted {
        assert k in multiset(sel);
      }
    }
    PermutationKeepsDistinctWords(sel, sorted);
    TakeOfSorted(sorted, TopCount);
    forall w | Keep(mal, benign, w) && w !in WordsOfKeywords(top)
      ensures |top| == TopCount && forall k :: k in top ==> k.freq >= multiset(mal)[w]
    {
      assert Keyword(w, multiset(mal)[w]) in sorted;
    }
  }

  /** Reordering a keyword list whose words are distinct keeps them distinct. */
  lemma PermutationKeepsDistinctWords(a: seq<Keyword>, b: seq<Keyword>)
    requires multiset(a) == multiset(b)
    requires NoDuplicates(WordsOfKeywords(a))
    ensures NoDuplicates(WordsOfKeywords(b))
  {
    forall i, j | 0 <= i < j < |b|
      ensures WordsOfKeywords(b)[i] != WordsOfKeywords(b)[j]
    {
      if b[i].word == b[j].word {
        assert b[i] in multiset(a) && b[j] in multiset(a);
        var x :| 0 <= x < |a| && a[x] == b[i];
        var y :| 0 <= y < |a| && a[y] == b[j];
        assert WordsOfKeywords(a)[x] == WordsOfKeywords(a)[y];
        assert x == y;
        TwoOccurrences(b, i, j);
        MultiplicityOne(a, x);
      }
    }
  }

  /** Two equal entries at distinct positions occur at least twice. */
  lemma TwoOccurrences<T>(b: seq<T>, i: int, j: int)
    requires 0 <= i < j < |b| && b[i] == b[j]
    ensures multiset(b)[b[i]] >= 2
  {
    var u, v, w := b[..i], b[i + 1..j], b[j + 1..];
    assert b == u + [b[i]] + v + [b[j]] + w;
    assert multiset(b) == multiset(u) + multiset{b[i]} + multiset(v) + multiset{b[j]} + multiset(w);
  }

  /** In a list with distinct words every keyword occurs once. */
  lemma {:induction false} MultiplicityOne(a: seq<Keyword>, x: int)
    requires 0 <= x < |a|
    requires NoDuplicates(WordsOfKeywords(a))
    ensures multiset(a)[a[x]] == 1
  {
    forall z | 0 <= z < |a| && z != x
      ensures a[z] != a[x]
    {
      assert WordsOfKeywords(a)[z] != WordsOfKeywords(a)[x];
    }
    assert a == a[..x] + [a[x]] + a[x + 1..];
    assert forall z :: 0 <= z < x ==> a[..x][z] == a[z];
    var tail := a[x + 1..];
    assert forall z :: 0 <= z < |tail| ==> tail[z] == a[x + 1 + z];
    assert a[x] !in a[..x];
    assert a[x] !in a[x + 1..];
  }

  // ---------------------------------------------------------------------------
  // Order among equal counts
  // ---------------------------------------------------------------------------

  /** Where a word first occurs in the malicious words; past the end when it
      does not occur. */
  function FirstSeen(mal: seq<string>, w: string): (i: int)
    ensures w in mal ==> i == FirstIndex(mal, w)
    ensures w !in mal ==> i == |mal|
  {
    if w in mal then FirstIndex(mal, w) else |mal|
  }

  /** The words of `ks` are listed in order of first occurrence in `mal`. */
  predicate InFirstSeenOrder(mal: seq<string>, ks: seq<Keyword>) {
    forall i, j :: 0 <= i < j < |ks| ==> FirstSeen(mal, ks[i].word) < FirstSeen(mal, ks[j].word)
  }

  lemma FirstSeenSnoc(mal: seq<string>, ks: seq<Keyword>, x: Keyword)
    requires InFirstSeenOrder(mal, ks)
    requires forall y :: y in ks ==> FirstSeen(mal, y.word) < FirstSeen(mal, x.word)
    ensures InFirstSeenOrder(mal, ks + [x])
  {
    var r := ks + [x];
    forall i, j | 0 <= i < j < |r|
      ensures FirstSeen(mal, r[i].word) < FirstSeen(mal, r[j].word)
    {
      assert r[i] == ks[i];
      if j < |ks| {
        assert r[j] == ks[j];
      } else {
        assert ks[i] in ks;
      }
    }
  }

  /** Every kept keyword's word comes from the list. */
  lemma {:induction false} KeptWords(order: seq<string>, mal: seq<string>, benign: seq<string>)
    ensures forall k :: k in Kept(order, mal, benign) ==> k.word in order
  {
    if order != [] {
      var n := |order| - 1;
      KeptWords(order[..n], mal, benign);
      assert forall w :: w in order[..n] ==> w in order;
    }
  }

  /** Keeping some words of a list ordered by first occurrence keeps them
      ordered. */
  lemma {:induction false} KeptInOrder(order: seq<string>, mal: seq<string>, benign: seq<string>)
    requires NoDuplicates(order)
    requires forall i, j :: 0 <= i < j < |order| ==> FirstSeen(mal, order[i]) < FirstSeen(mal, order[j])
    ensures InFirstSeenOrder(mal, Kept(order, mal, benign))
  {
    if order != [] {
      var n := |order| - 1;
      var init := order[..n];
      assert NoDuplicates(init) &&
        forall i, j :: 0 <= i < j < |init| ==> FirstSeen(mal, init[i]) < FirstSeen(mal, init[j]) by {
        forall i, j | 0 <= i < j < |init|
          ensures init[i] == order[i] && init[j] == order[j]
        {
        }
      }
      KeptInOrder(init, mal, benign);
      KeptWords(init, mal, benign);
      var ks := Kept(init, mal, benign);
      if Keep(mal, benign, order[n]) {
        var x := Keyword(order[n], multiset(mal)[order[n]]);
        forall y | y in ks
          ensures FirstSeen(mal, y.word) < FirstSeen(mal, x.word)
        {
          var p :| 0 <= p < n && init[p] == y.word;
          assert order[p] == y.word;
        }
        FirstSeenSnoc(mal, ks, x);
      }
    }
  }

  /** Words shown with the same count appear in the order in which each first
      occurs in the malicious corpus: the order of the counter's keys, kept
      by the stable sort. */
  lemma SuspiciousKeywordsTies(malLines: seq<string>, benignLines: seq<string>)
    ensures var mal := WordsOf(malLines);
      var top := SuspiciousKeywords(malLines, benignLines);
      forall i, j :: 0 <= i < j < |top| && top[i].freq == top[j].freq ==>
        top[i].word in mal && top[j].word in mal &&
        FirstIndex(mal, top[i].word) < FirstIndex(mal, top[j].word)
  {
    var mal := WordsOf(malLines);
    var benign := WordsOf(benignLines);
    var order := Distinct(mal);
    var rank := w => FirstSeen(mal, w);
    DistinctFirstSeen(mal);
    KeptInOrder(order, mal, benign);
    KeptSpec(order, mal, benign);
    var sel := Selected(mal, benign);
    assert TiesByRank(sel, rank) by {
      forall i, j | 0 <= i < j < |sel| && sel[i].freq == sel[j].freq
        ensures rank(sel[i].word) < rank(sel[j].word)
      {
        assert FirstSeen(mal, sel[i].word) < FirstSeen(mal, sel[j].word);
      }
    }
    SortKeepsTies(sel, rank);
    var sorted := SortByFreq(sel);
    var top := Take(sorted, TopCount);
    forall i, j | 0 <= i < j < |top| && top[i].freq == top[j].freq
      ensures top[i].word in mal && top[j].word in mal
      ensures FirstIndex(mal, top[i].word) < FirstIndex(mal, top[j].word)
    {
      assert top[i] == sorted[i] && top[j] == sorted[j];
      assert sorted[i] in multiset(sel) && sorted[j] in multiset(sel);
      assert rank(sorted[i].word) < rank(sorted[j].word);
    }
  }
}

=== FILE: popup.dfy ===
/** The popup's rendering decisions for a `RISK_ALERT` message: the colour
    class of the score and the text shown for the triggered keywords. The DOM
    itself is not modelled. */
module Popup {
  import opened Text
  import Downloads

  /** The three colour classes, from least to most severe. */
  datatype Band = Low | Medium | High

  function Severity(b: Band): nat {
    match b
    case Low => 0
    case Medium => 1
    case High => 2
  }

  /** The class name written into the score element. */
  function ClassName(b: Band): string {
    match b
    case Low => "low"
    case Medium => "medium"
    case High => "high"
  }

  /** The band of a score: high from 6, medium from 3, low below. */
  function BandOf(score: int): (b: Band)
    ensures b == High <==> 6 <= score
    ensures b == Medium <==> 3 <= score < 6
    ensures b == Low <==> score < 3
  {
    if score >= 6 then High
    else if score >= 3 then Medium
    else Low
  }

  /** A higher score never gets a less severe band, and the three class names
      are distinct, so every score gets exactly one of them. */
  lemma BandMonotone(s: int, t: int)
    requires s <= t
    ensures Severity(BandOf(s)) <= Severity(BandOf(t))
    ensures ClassName(BandOf(s)) == ClassName(BandOf(t)) <==> BandOf(s) == BandOf(t)
  {
  }

  /** `keywords.join(", ") || "None"` */
  function KeywordText(keywords: seq<string>): (t: string)
    ensures t != ""
  {
    var joined := Join(keywords, ", ");
    if joined == "" then "None" else joined
  }

  /** The joined list is empty exactly for the empty list and for a list
      holding one empty string; two or more entries always leave a separator. */
  lemma JoinEmptyIff(keywords: seq<string>)
    ensures Join(keywords, ", ") == "" <==> keywords == [] || keywords == [""]
  {
    if |keywords| >= 2 {
      assert keywords[0] + ", " <= Join(keywords, ", ");
    }
  }

  /** "None" is shown exactly when the list is empty, is a single empty
      string, or joins to the literal text "None"; otherwise the joined list
      is shown. */
  lemma KeywordTextNone(keywords: seq<string>)
    ensures KeywordText(keywords) == "None" <==>
      keywords == [] || keywords == [""] || Join(keywords, ", ") == "None"
    ensures KeywordText(keywords) != "None" ==> KeywordText(keywords) == Join(keywords, ", ")
  {
    JoinEmptyIff(keywords);
  }

  /** The alert sent after a dangerous download always carries the
      auto-download label, so the popup never shows "None" for it. */
  lemma DownloadAlertShowsLabels(e: Downloads.Engine, item: Downloads.DownloadItem, lookup: Downloads.TabLookup,
                                 stored: Downloads.Stored, openTabs: seq<Downloads.Tab>)
    ensures var r := Downloads.HandleDangerousDownload(e, item, lookup, stored, openTabs);
      KeywordText(r.record.triggered) == Join(r.record.triggered, ", ") != "None"
  {
    var ks := Downloads.HandleDangerousDownload(e, item, lookup, stored, openTabs).record.triggered;
    JoinEmptyIff(ks);
    if |ks| >= 2 {
      assert Join(ks, ", ") == ks[0] + ", " + Join(ks[1..], ", ");
      assert Join(ks, ", ")[|ks[0]|] == ',';
    } else {
      assert ks == [Downloads.AutoDownloadLabel];
    }
  }
}

=== FILE: text.dfy ===
/** String helpers shared by the extension and the keyword miner: ASCII
    lower-casing, prefix and suffix tests, and joining with a separator. */
module Text {

  /** ASCII lower-casing of one character; every other character is kept. */
  function LowerChar(c: char): char {
    if 'A' <= c <= 'Z' then (c as int - 'A' as int + 'a' as int) as char else c
  }

  /** `s.toLowerCase()` / `s.lower()`, restricted to ASCII letters. */
  function Lower(s: string): (r: string)
    ensures |r| == |s|
    ensures forall i :: 0 <= i < |s| ==> r[i] == LowerChar(s[i])
  {
    seq(|s|, i requires 0 <= i < |s| => LowerChar(s[i]))
  }

  predicate IsLowerAlnum(c: char) {
    'a' <= c <= 'z' || '0' <= c <= '9'
  }

  /** `s.endsWith(suffix)` */
  predicate EndsWith(s: string, suffix: string) {
    |suffix| <= |s| && s[|s| - |suffix|..] == suffix
  }

  /** `s.indexOf(prefix) === 0`, i.e. `s` starts with `prefix`. */
  predicate StartsWith(s: string, prefix: string) {
    |prefix| <= |s| && s[..|prefix|] == prefix
  }

  /** `xs.join(sep)` / `sep.join(xs)`: the elements with `sep` between
      neighbours, so one separator fewer than there are elements, and the
      text starts with the first element. */
  function Join(xs: seq<string>, sep: string): (r: string)
    ensures xs == [] ==> r == ""
    ensures xs != [] ==> xs[0] <= r
    ensures |xs| >= 2 ==> xs[0] + sep <= r
  {
    if |xs| == 0 then ""
    else if |xs| == 1 then xs[0]
    else xs[0] + sep + Join(xs[1..], sep)
  }

  /** The joined text holds every element and one separator fewer than
      there are elements. */
  lemma {:induction false} JoinSize(xs: seq<string>, sep: string)
    requires xs != []
    ensures |Join(xs, sep)| == |Concat(xs)| + (|xs| - 1) * |sep|
  {
    if |xs| == 1 {
      assert Concat(xs) == xs[0] + Concat([]);
    } else {
      JoinSize(xs[1..], sep);
      assert |Join(xs, sep)| == |xs[0]| + |sep| + |Join(xs[1..], sep)|;
      assert |Concat(xs)| == |xs[0]| + |Concat(xs[1..])|;
      assert (|xs| - 1) * |sep| == |sep| + (|xs| - 2) * |sep|;
    }
  }

  /** Joining a list with one more element in front. */
  lemma JoinCons(x: string, xs: seq<string>, sep: string)
    ensures Join([x] + xs, sep) == if xs == [] then x else x + sep + Join(xs, sep)
  {
    assert ([x] + xs)[0] == x && ([x] + xs)[1..] == xs;
  }

  /** The elements laid end to end. */
  function Concat(xs: seq<string>): string {
    if xs == [] then "" else xs[0] + Concat(xs[1..])
  }

  predicate NoDuplicates<T(==)>(xs: seq<T>) {
    forall i, j :: 0 <= i < j < |xs| ==> xs[i] != xs[j]
  }

  lemma LowerIdempotent(s: string)
    ensures Lower(Lower(s)) == Lower(s)
  {
  }
}

=== FILE: url_tokens.dfy ===
/** The URL tokeniser of the keyword-extraction script: lower-case the URL,
    turn every character outside `[a-z0-9]` into a space, and split on
    whitespace. */
module UrlTokens {
  import opened Text

  /** Python's `str.isspace` on ASCII: tab, line feed, vertical tab, form
      feed, carriage return, the four separator controls and space. */
  predicate IsSpace(c: char) {
    (9 <= c as int <= 13) || (28 <= c as int <= 32)
  }

  /** A token: non-empty, made of lower-case ASCII letters and digits only. */
  predicate IsToken(w: string) {
    w != [] && forall j :: 0 <= j < |w| ==> IsLowerAlnum(w[j])
  }

  /** `re.sub(r'[^a-z0-9]', ' ', s)` */
  function Mask(s: string): (r: string)
    ensures |r| == |s|
    ensures forall i :: 0 <= i < |s| ==> r[i] == (if IsLowerAlnum(s[i]) then s[i] else ' ')
  {
    seq(|s|, i requires 0 <= i < |s| => if IsLowerAlnum(s[i]) then s[i] else ' ')
  }

  /** `s.split()` continued from a partly read word `cur`: maximal runs of
      non-whitespace characters, in order, with no empty strings. */
  function SplitFrom(s: string, cur: string): seq<string>
    decreases |s|
  {
    if s == [] then (if cur == [] then [] else [cur])
    else if IsSpace(s[0]) then (if cur == [] then SplitFrom(s[1..], []) else [cur] + SplitFrom(s[1..], []))
    else SplitFrom(s[1..], cur + [s[0]])
  }

  /** A piece of `split()`'s result: non-empty, without whitespace. */
  predicate IsWord(w: string) {
    w != [] && forall j :: 0 <= j < |w| ==> !IsSpace(w[j])
  }

  /** Where a left-to-right reading of a text stands: before the first word,
      inside a word, or in whitespace that follows a word. */
  datatype Phase = Start | InWord | Gap

  /** `" ".join(s.split())` as a scan over the characters: whitespace before
      the first word and after the last is dropped, and every whitespace run
      between two words becomes a single space. */
  function SqueezeFrom(s: string, ph: Phase): string
    decreases |s|
  {
    if s == [] then []
    else if IsSpace(s[0]) then SqueezeFrom(s[1..], if ph == Start then Start else Gap)
    else (if ph == Gap then " " else "") + [s[0]] + SqueezeFrom(s[1..], InWord)
  }

  function Squeeze(s: string): string {
    SqueezeFrom(s, Start)
  }

  /** After a word, the rest reads as a space followed by its own squeezed
      text, unless nothing but whitespace is left. */
  lemma {:induction false} SqueezeGap(s: string)
    ensures SqueezeFrom(s, Gap) == if Squeeze(s) == [] then [] else " " + Squeeze(s)
    decreases |s|
  {
    if s != [] && IsSpace(s[0]) {
      SqueezeGap(s[1..]);
    }
  }

  /** Every piece of a split is a non-empty run without whitespace. */
  lemma {:induction false} SplitWords(s: string, cur: string)
    requires forall j :: 0 <= j < |cur| ==> !IsSpace(cur[j])
    ensures forall k :: 0 <= k < |SplitFrom(s, cur)| ==> IsWord(SplitFrom(s, cur)[k])
    decreases |s|
  {
    if s == [] {
    } else if IsSpace(s[0]) {
      SplitWords(s[1..], []);
    } else {
      SplitWords(s[1..], cur + [s[0]]);
    }
  }

  /** Closing a word at whitespace: the word, then a space before the rest
      when the rest has any piece. */
  lemma CloseWord(cur: string, rest: seq<string>, t: string)
    requires cur != []
    requires rest != [] ==> rest[0] != []
    requires Join(rest, " ") == Squeeze(t)
    ensures Join([cur] + rest, " ") == cur + SqueezeFrom(t, Gap)
  {
    if rest == [] {
      JoinCons(cur, rest, " ");
      SqueezeGap(t);
    } else {
      var j := Join(rest, " ");
      assert j != [] by {
        assert rest[0] <= j;
      }
      calc {
        Join([cur] + rest, " ");
        == { JoinCons(cur, rest, " "); }
        cur + " " + j;
        == { assert cur + " " + j == cur + (" " + j); }
        cur + (" " + j);
        == { SqueezeGap(t); }
        cur + SqueezeFrom(t, Gap);
      }
    }
  }

  /** The pieces joined with single spaces are the squeezed text: pieces are
      the maximal whitespace-free runs. */
  lemma {:induction false} SplitSqueeze(s: string, cur: string)
    ensures Join(SplitFrom(s, cur), " ") == cur + SqueezeFrom(s, if cur == [] then Start else InWord)
    decreases |s|
  {
    if s == [] {
      if cur != [] {
        JoinCons(cur, [], " ");
      }
    } else if IsSpace(s[0]) {
      SplitSqueeze(s[1..], []);
      if cur != [] {
        SplitWords(s[1..], []);
        assert SplitFrom(s, cur) == [cur] + SplitFrom(s[1..], []);
        assert SqueezeFrom(s, InWord) == SqueezeFrom(s[1..], Gap);
        assert SplitFrom(s[1..], []) != [] ==> IsWord(SplitFrom(s[1..], [])[0]);
        CloseWord(cur, SplitFrom(s[1..], []), s[1..]);
      }
    } else {
      var ph := if cur == [] then Start else InWord;
      SplitSqueeze(s[1..], cur + [s[0]]);
      assert SplitFrom(s, cur) == SplitFrom(s[1..], cur + [s[0]]);
      assert SqueezeFrom(s, ph) == [s[0]] + SqueezeFrom(s[1..], InWord);
      assert cur + [s[0]] + SqueezeFrom(s[1..], InWord) == cur + ([s[0]] + SqueezeFrom(s[1..], InWord));
    }
  }

  /** `s.split()` with no separator argument. */
  function Split(s: string): seq<string> {
    SplitFrom(s, [])
  }

  /** `s.split()` yields whitespace-free non-empty pieces that together hold
      every other character, and that joined with single spaces give the text
      with its whitespace runs squeezed. */
  lemma SplitSpec(s: string)
    ensures forall k :: 0 <= k < |Split(s)| ==> IsWord(Split(s)[k])
    ensures Concat(Split(s)) == NonSpace(s)
    ensures Join(Split(s), " ") == Squeeze(s)
  {
    SplitWords(s, []);
    SplitConcat(s, []);
    SplitSqueeze(s, []);
  }

  /** `clean_url`: every token it returns is non-empty and made of `[a-z0-9]`. */
  function CleanUrl(url: string): (tokens: seq<string>)
    ensures forall k :: 0 <= k < |tokens| ==> IsToken(tokens[k])
  {
    var masked := Mask(Lower(url));
    SplitTokens(masked, []);
    Split(masked)
  }

  /** The tokens are the maximal runs of `[a-z0-9]`: joined with single
      spaces they give the masked, lower-cased URL with its space runs
      squeezed. Since tokens hold no spaces, this fixes them (`SplitJoin`). */
  lemma CleanUrlSqueezed(url: string)
    ensures Join(CleanUrl(url), " ") == Squeeze(Mask(Lower(url)))
  {
    var masked := Mask(Lower(url));
    assert CleanUrl(url) == Split(masked);
    SplitSpec(masked);
  }

  /** The characters of `s` that are not whitespace, in order. */
  function NonSpace(s: string): string {
    if s == [] then [] else (if IsSpace(s[0]) then [] else [s[0]]) + NonSpace(s[1..])
  }

  /** The characters of `s` that are lower-case letters or digits, in order. */
  function AlnumOnly(s: string): string {
    if s == [] then [] else (if IsLowerAlnum(s[0]) then [s[0]] else []) + AlnumOnly(s[1..])
  }

  /** On text made of `[a-z0-9]` and spaces, splitting yields tokens. */
  lemma {:induction false} SplitTokens(s: string, cur: string)
    requires forall i :: 0 <= i < |s| ==> IsLowerAlnum(s[i]) || s[i] == ' '
    requires forall j :: 0 <= j < |cur| ==> IsLowerAlnum(cur[j])
    ensures forall k :: 0 <= k < |SplitFrom(s, cur)| ==> IsToken(SplitFrom(s, cur)[k])
    decreases |s|
  {
    if s == [] {
    } else if IsSpace(s[0]) {
      SplitTokens(s[1..], []);
    } else {
      SplitTokens(s[1..], cur + [s[0]]);
    }
  }

  /** Splitting only removes whitespace: the pieces laid end to end are the
      non-whitespace characters, in order. */
  lemma {:induction false} SplitConcat(s: string, cur: string)
    ensures Concat(SplitFrom(s, cur)) == cur + NonSpace(s)
    decreases |s|
  {
    if s == [] {
    } else if IsSpace(s[0]) {
      SplitConcat(s[1..], []);
      if cur != [] {
        assert Concat([cur] + SplitFrom(s[1..], [])) == cur + Concat(SplitFrom(s[1..], []));
      }
    } else {
      SplitConcat(s[1..], cur + [s[0]]);
    }
  }

  lemma {:induction false} NonSpaceOfMask(s: string)
    ensures NonSpace(Mask(s)) == AlnumOnly(s)
  {
    if s != [] {
      assert Mask(s)[1..] == Mask(s[1..]);
      NonSpaceOfMask(s[1..]);
    }
  }

  /** The tokens of a URL laid end to end are exactly the letters and digits
      of its lower-cased form, in order. */
  lemma CleanUrlKeepsAlnum(url: string)
    ensures Concat(CleanUrl(url)) == AlnumOnly(Lower(url))
  {
    SplitConcat(Mask(Lower(url)), []);
    NonSpaceOfMask(Lower(url));
  }

  /** Lower-casing first changes nothing. */
  lemma CleanUrlIgnoresCase(url: string)
    ensures CleanUrl(Lower(url)) == CleanUrl(url)
  {
    LowerIdempotent(url);
  }

  /** Reading a word without whitespace extends the current word. */
  lemma {:induction false} SplitFromWord(w: string, s: string, cur: string)
    requires forall j :: 0 <= j < |w| ==> !IsSpace(w[j])
    ensures SplitFrom(w + s, cur) == SplitFrom(s, cur + w)
    decreases |w|
  {
    if w == [] {
      assert w + s == s && cur + w == cur;
    } else {
      assert (w + s)[0] == w[0] && !IsSpace(w[0]);
      assert (w + s)[1..] == w[1..] + s;
      assert cur + [w[0]] + w[1..] == cur + w;
      SplitFromWord(w[1..], s, cur + [w[0]]);
    }
  }

  /** Splitting the space-joined tokens gives the tokens back. */
  lemma {:induction false} SplitJoin(ws: seq<string>)
    requires forall k :: 0 <= k < |ws| ==> IsToken(ws[k])
    ensures Split(Join(ws, " ")) == ws
    decreases |ws|
  {
    if |ws| == 1 {
      assert IsToken(ws[0]);
      assert forall j :: 0 <= j < |ws[0]| ==> !IsSpace(ws[0][j]);
      assert ws[0] + [] == ws[0] && [] + ws[0] == ws[0];
      SplitFromWord(ws[0], [], []);
    } else if |ws| > 1 {
      var w := ws[0];
      var rest := Join(ws[1..], " ");
      assert Join(ws, " ") == w + (" " + rest);
      assert IsToken(w);
      assert forall j :: 0 <= j < |w| ==> !IsSpace(w[j]);
      SplitFromWord(w, " " + rest, []);
      assert [] + w == w;
      assert (" " + rest)[0] == ' ' && (" " + rest)[1..] == rest;
      assert SplitFrom(" " + rest, w) == [w] + SplitFrom(rest, []);
      SplitJoin(ws[1..]);
      assert ws == [w] + ws[1..];
    }
  }

  /** Joined tokens are made of `[a-z0-9]` and spaces. */
  lemma {:induction false} JoinAlphabet(ws: seq<string>)
    requires forall k :: 0 <= k < |ws| ==> IsToken(ws[k])
    ensures forall i :: 0 <= i < |Join(ws, " ")| ==> IsLowerAlnum(Join(ws, " ")[i]) || Join(ws, " ")[i] == ' '
    decreases |ws|
  {
    if |ws| > 1 {
      JoinAlphabet(ws[1..]);
      var rest := Join(ws[1..], " ");
      assert Join(ws, " ") == ws[0] + " " + rest;
      forall i | 0 <= i < |Join(ws, " ")|
        ensures IsLowerAlnum(Join(ws, " ")[i]) || Join(ws, " ")[i] == ' '
      {
        if i < |ws[0]| {
          assert Join(ws, " ")[i] == ws[0][i];
        } else if i > |ws[0]| {
          assert Join(ws, " ")[i] == rest[i - |ws[0]| - 1];
        }
      }
    }
  }

  /** `clean_url` is idempotent on its own output: cleaning the space-joined
      tokens again yields the same tokens. */
  lemma CleanUrlIdempotent(url: string)
    ensures CleanUrl(Join(CleanUrl(url), " ")) == CleanUrl(url)
  {
    var ws := CleanUrl(url);
    var j := Join(ws, " ");
    JoinAlphabet(ws);
    assert Lower(j) == j;
    assert Mask(j) == j;
    SplitJoin(ws);
  }
}

=== FILE: wrappers.dfy ===
/** The optional-value datatype used for JavaScript's "missing or falsy" values
    and for calls into collaborators that may throw. */
module Wrappers {

  datatype Option<+T> = None | Some(value: T) {

    /** The wrapped value, or `default` when there is none (JavaScript's `x || default`). */
    function GetOr(default: T): T {
      match this
      case Some(v) => v
      case None => default
    }
  }
}
